=== FILE: README.md ===
# userscraper core, modelled in Dafny

This project models the protocol logic of the `Instagram` client class in
`userscraper/scraper.py`. That logic has four parts:

- **The cursor pagination engine** (`query_nodes`). The backend is the finite
  list of pages it answers with. The engine forces `first = 50` into the query
  variables. It fails with `AccessToDataDenied` when the first page has no
  edges. Otherwise it streams the nodes of every page, in order, and follows
  `has_next_page`. Each follow-up request carries the previous page's
  `end_cursor` as `after`.
- **The max-count wrappers** (`get_followers`, `get_followees`). Both cut a
  prefix off the stream, with different lengths. Followers stops at
  `max_count` items. Followees stops at `max_count + 1` items. A falsy
  `max_count` (None or 0) means no limit.
- **The authentication state machine** (`login`, `verify_two_factor`).
  - The login answer is classified with a fixed precedence: two-factor
    required, non-ok status, wrong password, unknown username, success.
  - The pending two-factor challenge is the only state kept between calls
    besides the session's headers and cookies.
  - The `enc_password` field is `#PWD_INSTAGRAM_BROWSER:0:<unix time>:<password>`.
- **Header bookkeeping.**
  - `load_session` derives the `X-CSRFToken` header from the `csrftoken` cookie.
  - `get_user_info` switches to the mobile host and client, and switches back
    only when the answer is not a 404.

Every backend answer is a parameter: the cookies of the site root, the decoded
login and two-factor JSON, the profile answer and the list of pages. The clock
is a parameter too (`now`, seconds since the epoch). Each Python method that
changes the client returns a `Session.Step`. A `Step` holds the form the call
posted, its outcome (`Ok` or the exception it raised, as `Errors.Error`) and
the client state afterwards. That state includes whatever the method had
already changed before it raised.

Modules: `Errors` (the exception classes of `userscraper/exceptions.py` as data),
`Text` (decimal formatting and `str.find`), `Session` (default headers and
client state), `Auth`, `Profile`, `Pagination`, `Relationships`.

Behaviour of the code worth noting:

- `load_session` installs the stored cookie jar *before* it looks up
  `csrftoken`. A jar without that cookie is therefore already installed when
  the lookup fails; the client is not left as it was.
- `get_user_info` does not restore the web identity headers after a 404. The
  `UserNotFound` error is raised while the mobile identity is still installed.
- `verify_two_factor` returns normally on a non-ok answer whose `error_type`
  does not mention `code_invalid`. The challenge is cleared, as on success.
- `query_nodes` writes `first` and each `after` into the dict the caller
  passed. A caller that reuses that dict starts its next walk from the last
  cursor, so `Pagination.Run` carries the variables as the walk left them.
  `get_followers` and `get_followees` pass a fresh dict each time.
- The followers/followees asymmetry is kept as written. A negative `max_count`
  is truthy, so followers yields everything and followees yields nothing.

## Model

| member | source | states |
|---|---|---|
| Session.NewClient | userscraper/scraper.py:11-30 | a new client carries the web host and browser agent headers, has no CSRF header and no cookies, and has no pending challenge |
| Text.DecimalRoundTrip | userscraper/scraper.py:37 | the decimal text written for the timestamp reads back as the same number |
| Text.DecimalOfParse | userscraper/scraper.py:37 | a non-empty digit string without a leading zero is the decimal text of its own value, so the timestamp text is the only decimal spelling of the timestamp |
| Text.Find | userscraper/scraper.py:72 | `str.find` gives -1 exactly when the substring does not occur; otherwise it gives an index where it occurs and before which it does not |
| Auth.EncPasswordRoundTrip | userscraper/scraper.py:37 | the password field splits back into the timestamp and the password, even when the password contains colons |
| Auth.ParseEncPasswordCanonical | userscraper/scraper.py:37 | any field the parser accepts is exactly the tag, the timestamp's decimal text without leading zeros, a colon and the password; with the round trip this fixes the text of the field |
| Auth.LoginForm | userscraper/scraper.py:36-39 | the login form has exactly the fields `enc_password` and `username`; the username is unchanged and the field encodes `now` and the password |
| Auth.Login | userscraper/scraper.py:32-57 | a missing `csrftoken` cookie fails before anything is posted or changed; otherwise the header echoes the token and the outcome follows the precedence two-factor > non-ok status (backend message if non-empty) > wrong password > unknown username > success; only the two-factor branch stores a challenge `(identifier, username)` |
| Auth.VerifyTwoFactor | userscraper/scraper.py:59-74 | with no challenge it fails with NoTwoFactorAuthPending and posts nothing; otherwise it posts the identifier, username and code; it fails, keeping the challenge, exactly when the status is not ok and the error type contains `code_invalid`; every other answer clears the challenge |
| Auth.LoadSession | userscraper/scraper.py:80-83 | the jar becomes the stored cookies; the call succeeds exactly when `csrftoken` is among them, and then the CSRF header equals that cookie and no other header changes; on failure the headers are untouched |
| Auth.LoginThenVerify | userscraper/scraper.py:43-74 | after a login that requires two factors, verification posts that login's identifier and username with the code; it clears the challenge exactly when the code is not rejected |
| Auth.ChallengeConsumedOnce | userscraper/scraper.py:60-74 | once a verification has succeeded, a second one fails with NoTwoFactorAuthPending |
| Profile.GetUserInfo | userscraper/scraper.py:85-93 | a 404 raises UserNotFound with the mobile host and agent still installed; any other status puts the web host and browser agent back and returns the profile when the body has one; no other header, cookie or challenge changes |
| Profile.LookupRestoresIdentity | userscraper/scraper.py:86-92 | from a client with the web identity, a lookup without 404 leaves the client exactly as it was, and a 404 lookup does not |
| Pagination.FetchRest | userscraper/scraper.py:129-133 | the follow-up requests number one per page with a next page; the i-th sets `after` to that page's cursor; the nodes are those of the following pages up to the last one fetched |
| Pagination.QueryNodes | userscraper/scraper.py:114-133 | the first request is the caller's variables with `first = 50`; each later request changes only `after`, to the previous page's cursor; an empty first page ends the walk whatever the later pages say, and is the only error (AccessToDataDenied, one request); otherwise the pages up to the first without a next page are fetched, and their nodes are streamed in order; the caller's variables are left as the last request sent them |
| Pagination.QueryNodesCount | userscraper/scraper.py:127-133 | a successful walk streams as many nodes as the fetched pages hold |
| Pagination.QueryNodesPosition | userscraper/scraper.py:127-133 | node `j` of fetched page `k` is streamed right after all nodes of the earlier pages; no node is dropped, duplicated or reordered |
| Pagination.QueryNodesOrigin | userscraper/scraper.py:127-133 | every streamed node is a node of some fetched page |
| Pagination.QueryNodesRequestVariables | userscraper/scraper.py:115-131 | every request uses the query id and `first = 50`; the first request has no `after` unless the caller supplied one; request k carries page k-1's end cursor; every other caller variable is carried unchanged in every request |
| Pagination.QueryNodesLeavesVariables | userscraper/scraper.py:115-131 | after a successful walk the caller's variables hold `first = 50` and, when a follow-up was made, the end cursor of the last page that had a next one; with no follow-up they are the caller's variables with only `first` forced |
| Relationships.TakeFollowersIsPrefix | userscraper/scraper.py:138-141 | the followers loop yields exactly the stream's first `max_count` items for a positive limit, and the whole stream otherwise |
| Relationships.TakeFolloweesIsPrefix | userscraper/scraper.py:146-149 | the followees loop yields exactly the stream's first `max_count + 1` items for a positive limit, none for a negative one, and the whole stream for None or 0 |
| Relationships.GetFollowers | userscraper/scraper.py:135-141 | every request is for the followers query id `17851374694183129` with `id` equal to the user id; fails with AccessToDataDenied after one request exactly when the first page is empty; otherwise yields the prefix of the followers walk of length min(max_count, total), or all of it when unlimited |
| Relationships.GetFollowees | userscraper/scraper.py:143-149 | every request is for the followees query id `17874545323001329` with `id` equal to the user id; fails with AccessToDataDenied after one request exactly when the first page is empty; otherwise yields the prefix of the followees walk of length min(max_count + 1, total), or all of it when unlimited |
| Relationships.LimitAsymmetry | userscraper/scraper.py:135-149 | on the same pages with a limit that is not negative, followers is a prefix of followees; a limit n below the stream size gives n followers and n + 1 followees; with no limit both give the whole stream |
| Relationships.NegativeLimit | userscraper/scraper.py:138-149 | a negative limit gives every follower and no followee |

## Left out

- Pagination.QueryNodes: requires that the walk ends on the given pages. Either the first page is empty, which ends the walk at once with AccessToDataDenied, or some page has `has_next_page` false. A backend whose first page is not empty and whose pages never end makes the source loop forever, and a finite page list cannot express that.
- Relationships.GetFollowers: same requirement that the walk ends. Against an endless backend the source could still stop early on a limit. The requests it returns are those of the whole walk; the source's lazy generator may stop requesting once the limit is reached.
- Relationships.GetFollowees: same requirement that the walk ends, and the requests are those of the whole walk, for the same reasons.
- Generator laziness: the source fetches pages only as the consumer pulls nodes, so a limited walk may fetch fewer pages than a full one. The model computes the full walk and then cuts it.
- HTTP transport (`requests.Session`, the request timeout, network failures): these are I/O. Every answer is a parameter instead.
- Cookie jar updates made by the transport from response cookies: these are transport behaviour. `login` reads the token from the root answer's cookies, and the model leaves the jar unchanged.
- The closing GET of a successful login (line 57): it only refreshes cookies through the transport.
- `save_session` and the pickle format of `load_session`: these are opaque serialisation. Only the header derivation after loading is modelled.
- JSON encoding of the query variables and decoding of answers: answers are already-structured records. A key missing from a login or two-factor answer is not modelled.
- Exception message texts: errors carry structured reasons instead. For a non-ok login without a message, the source embeds the whole JSON answer, and the model does not.
- Auth.LoadSession: the cookie jar is modelled as a name-to-value map. A `requests` jar is keyed by domain, path and name, and in the source a jar holding two `csrftoken` cookies makes the lookup raise `CookieConflictError`. The model cannot represent such a jar. The same holds for the root answer's cookies read by `Auth.Login`.
- Header and cookie names: the source's header map is case-insensitive, while the model uses exact names.
- The field-by-field projection of the profile in `get_user_info` (lines 93-112): it is a plain renaming. The profile record is returned as the answer gave it.
- `is_logged_in`: a substring heuristic on an HTML page whose meaning depends on the server.
- The command-line layer (`userscraper/__main__.py`) and the "not following back" difference: the difference is computed in the command-line layer, which is not modelled.

=== FILE: auth.dfy ===
/**
  The authentication manager: `login`, `verify_two_factor` and the CSRF
  header derivation of `load_session`, with every backend answer turned into
  a parameter. The pending challenge is the only state that survives between
  calls besides the session's headers and cookies.
 */
module Auth {
  import opened Errors
  import opened Text
  import opened Session

  const PasswordTag := "#PWD_INSTAGRAM_BROWSER:0:"
  const CsrfCookie := "csrftoken"
  const CsrfHeader := "X-CSRFToken"

  /** The decoded JSON answer to the login POST. */
  datatype LoginResponse = LoginResponse(
    twoFactorRequired: bool,      // truthiness of `two_factor_required` (false when absent)
    twoFactorIdentifier: string,  // `two_factor_info.two_factor_identifier`
    status: string,
    message: Option<string>,      // None when the key is absent
    authenticated: bool,
    userPresent: bool             // truthiness of `user`
  )

  /** The decoded JSON answer to the two-factor POST. */
  datatype TwoFactorResponse = TwoFactorResponse(status: string, errorType: Option<string>)

  /** The obfuscated password field: protocol tag, timestamp, then the password verbatim. */
  function EncPassword(now: nat, password: string): string {
    PasswordTag + Decimal(now) + ":" + password
  }

  /**
    The backend's reading of an `enc_password` field: the tag, a decimal
    timestamp without leading zeros up to the first colon after it, and
    everything else as the password. None for a field not of that shape.
   */
  function ParseEncPassword(field: string): Option<(nat, string)> {
    if |field| < |PasswordTag| || field[..|PasswordTag|] != PasswordTag then None
    else
      var rest := field[|PasswordTag|..];
      var colon := Find(rest, ":");
      if colon == -1 || colon == 0 || !AllDigits(rest[..colon]) || (colon > 1 && rest[0] == '0') then None
      else Some((ParseDecimal(rest[..colon]), rest[colon + 1..]))
  }

  /** The password, including any colons in it, and the timestamp are recovered intact. */
  lemma EncPasswordRoundTrip(now: nat, password: string)
    ensures ParseEncPassword(EncPassword(now, password)) == Some((now, password))
  {
    var digits := Decimal(now);
    var field := EncPassword(now, password);
    var rest := digits + ":" + password;
    assert field == PasswordTag + rest;
    assert field[..|PasswordTag|] == PasswordTag;
    assert field[|PasswordTag|..] == rest;
    assert OccursAt(rest, ":", |digits|);
    forall j | 0 <= j < |digits|
      ensures !OccursAt(rest, ":", j)
    {
      assert rest[j..j + 1] == [digits[j]];
    }
    var colon := Find(rest, ":");
    assert colon == |digits|;
    assert rest[..colon] == digits;
    assert rest[colon + 1..] == password;
    DecimalRoundTrip(now);
  }

  /** A field the parser accepts is the one `EncPassword` writes for what it parsed. */
  lemma ParseEncPasswordCanonical(field: string, now: nat, password: string)
    requires ParseEncPassword(field) == Some((now, password))
    ensures field == EncPassword(now, password)
  {
    var rest := field[|PasswordTag|..];
    var colon := Find(rest, ":");
    var digits := rest[..colon];
    DecimalOfParse(digits);
    assert rest[colon..colon + 1] == ":";
    assert rest == digits + ":" + rest[colon + 1..];
    assert field == field[..|PasswordTag|] + rest;
  }

  /** The form posted by `login`. */
  function LoginForm(username: string, password: string, now: nat): (f: Form)
    ensures f.Keys == {"enc_password", "username"}
    ensures f["username"] == username
    ensures ParseEncPassword(f["enc_password"]) == Some((now, password))
  {
    EncPasswordRoundTrip(now, password);
    map["enc_password" := EncPassword(now, password), "username" := username]
  }

  /**
    `login`: take the CSRF token from the cookies of the site root's answer,
    post the credentials, and classify the answer. A missing `csrftoken`
    cookie raises before anything is posted.
   */
  function Login(client: Client, username: string, password: string, now: nat,
                 rootCookies: Cookies, resp: LoginResponse): (r: Step<()>)
    // no token: nothing posted, nothing changed
    ensures CsrfCookie !in rootCookies ==> r == Step(None, Err(MissingKey(CsrfCookie)), client)
    // otherwise the header echoes the token, the form is posted, the jar is untouched
    ensures CsrfCookie in rootCookies ==>
      && r.posted == Some(LoginForm(username, password, now))
      && r.client.headers == client.headers[CsrfHeader := rootCookies[CsrfCookie]]
      && r.client.cookies == client.cookies
    // 1. two-factor required: the challenge is stored and signalled
    ensures r.outcome == Err(TwoFactorAuthRequired(username))
      <==> CsrfCookie in rootCookies && resp.twoFactorRequired
    ensures CsrfCookie in rootCookies && resp.twoFactorRequired ==>
      r.client.twoFactor == AwaitingTwoFactor(resp.twoFactorIdentifier, username)
    // 2. a non-ok status: the backend's message when it gave a non-empty one
    ensures (exists m :: r.outcome == Err(AuthenticationError(BackendMessage(m))))
      <==> CsrfCookie in rootCookies && !resp.twoFactorRequired && resp.status != "ok"
           && resp.message.Some? && |resp.message.value| > 0
    ensures r.outcome.Err? && r.outcome.error.AuthenticationError? && r.outcome.error.reason.BackendMessage? ==>
      resp.message == Some(r.outcome.error.reason.message)
    ensures r.outcome == Err(AuthenticationError(UnexpectedResponse))
      <==> CsrfCookie in rootCookies && !resp.twoFactorRequired && resp.status != "ok"
           && (resp.message.None? || |resp.message.value| == 0)
    // 3. and 4. an ok status but not authenticated
    ensures r.outcome == Err(AuthenticationError(IncorrectPassword(username)))
      <==> CsrfCookie in rootCookies && !resp.twoFactorRequired && resp.status == "ok"
           && !resp.authenticated && resp.userPresent
    ensures r.outcome == Err(AuthenticationError(UnknownUsername(username)))
      <==> CsrfCookie in rootCookies && !resp.twoFactorRequired && resp.status == "ok"
           && !resp.authenticated && !resp.userPresent
    // 5. success
    ensures r.outcome.Ok?
      <==> CsrfCookie in rootCookies && !resp.twoFactorRequired && resp.status == "ok" && resp.authenticated
    // only the two-factor branch touches the pending challenge
    ensures r.client.twoFactor != client.twoFactor ==> resp.twoFactorRequired
    ensures !resp.twoFactorRequired ==> r.client.twoFactor == client.twoFactor
  {
    if CsrfCookie !in rootCookies then Step(None, Err(MissingKey(CsrfCookie)), client)
    else
      var posted := Some(LoginForm(username, password, now));
      var c := client.(headers := client.headers[CsrfHeader := rootCookies[CsrfCookie]]);
      if resp.twoFactorRequired then
        Step(posted, Err(TwoFactorAuthRequired(username)),
             c.(twoFactor := AwaitingTwoFactor(resp.twoFactorIdentifier, username)))
      else if resp.status != "ok" then
        var reason :=
          if resp.message.Some? && |resp.message.value| > 0 then BackendMessage(resp.message.value)
          else UnexpectedResponse;
        Step(posted, Err(AuthenticationError(reason)), c)
      else if !resp.authenticated then
        var reason := if resp.userPresent then IncorrectPassword(username) else UnknownUsername(username);
        Step(posted, Err(AuthenticationError(reason)), c)
      else
        Step(posted, Ok(()), c)
  }

  /** The backend rejected the code itself: a non-ok status whose error type mentions `code_invalid`. */
  predicate CodeRejected(resp: TwoFactorResponse) {
    resp.status != "ok" && resp.errorType.Some? && Contains(resp.errorType.value, "code_invalid")
  }

  /**
    `verify_two_factor`: post the pending challenge with the code. Only a
    rejected code keeps the challenge; every other answer, including other
    non-ok ones, returns normally and clears it.
   */
  function VerifyTwoFactor(client: Client, code: string, resp: TwoFactorResponse): (r: Step<()>)
    ensures client.twoFactor.NoChallenge? ==> r == Step(None, Err(NoTwoFactorAuthPending), client)
    ensures client.twoFactor.AwaitingTwoFactor? ==>
      r.posted == Some(map["identifier" := client.twoFactor.identifier,
                           "username" := client.twoFactor.username,
                           "verificationCode" := code])
    ensures client.twoFactor.AwaitingTwoFactor? ==> (r.outcome.Err? <==> CodeRejected(resp))
    ensures client.twoFactor.AwaitingTwoFactor? && CodeRejected(resp) ==>
      r.outcome == Err(AuthenticationError(IncorrectTwoFactorCode)) && r.client == client
    ensures client.twoFactor.AwaitingTwoFactor? && !CodeRejected(resp) ==>
      r.client == client.(twoFactor := NoChallenge)
  {
    match client.twoFactor
    case NoChallenge => Step(None, Err(NoTwoFactorAuthPending), client)
    case AwaitingTwoFactor(identifier, username) =>
      var posted := Some(map["identifier" := identifier, "username" := username, "verificationCode" := code]);
      var errorTypeTruthy := resp.errorType.Some? && |resp.errorType.value| > 0;
      if resp.status != "ok" && errorTypeTruthy && Find(resp.errorType.value, "code_invalid") != -1 then
        Step(posted, Err(AuthenticationError(IncorrectTwoFactorCode)), client)
      else
        Step(posted, Ok(()), client.(twoFactor := NoChallenge))
  }

  /** The session's CSRF header echoes the jar's `csrftoken` cookie. */
  predicate CsrfSynced(client: Client) {
    CsrfCookie in client.cookies && CsrfHeader in client.headers
    && client.headers[CsrfHeader] == client.cookies[CsrfCookie]
  }

  /**
    `load_session`: the jar is replaced by the stored cookies, and only then
    is the CSRF header taken from it, so a jar without `csrftoken` is already
    installed when the lookup fails.
   */
  function LoadSession(client: Client, stored: Cookies): (r: Step<()>)
    ensures r.posted.None?
    ensures r.client.cookies == stored && r.client.twoFactor == client.twoFactor
    ensures r.outcome.Ok? <==> CsrfCookie in stored
    ensures r.outcome.Ok? ==> CsrfSynced(r.client)
    ensures r.outcome.Ok? ==> r.client.headers.Keys == client.headers.Keys + {CsrfHeader}
    ensures forall h :: h in client.headers && h != CsrfHeader ==> h in r.client.headers && r.client.headers[h] == client.headers[h]
    ensures r.outcome.Err? ==> r.outcome.error == MissingKey(CsrfCookie) && r.client.headers == client.headers
  {
    var c := client.(cookies := stored);
    if CsrfCookie in stored then Step(None, Ok(()), c.(headers := c.headers[CsrfHeader := stored[CsrfCookie]]))
    else Step(None, Err(MissingKey(CsrfCookie)), c)
  }

  /**
    The challenge `login` stores is the one `verify_two_factor` sends: its
    identifier from the login answer, the username that logged in, and the code.
   */
  lemma LoginThenVerify(client: Client, username: string, password: string, now: nat,
                        rootCookies: Cookies, resp: LoginResponse, code: string, answer: TwoFactorResponse)
    requires CsrfCookie in rootCookies && resp.twoFactorRequired
    ensures var v := VerifyTwoFactor(Login(client, username, password, now, rootCookies, resp).client, code, answer);
      && v.posted == Some(map["identifier" := resp.twoFactorIdentifier, "username" := username, "verificationCode" := code])
      && (v.outcome.Ok? <==> !CodeRejected(answer))
      && (v.outcome.Ok? ==> v.client.twoFactor == NoChallenge)
      && (v.outcome.Err? ==> v.client.twoFactor == AwaitingTwoFactor(resp.twoFactorIdentifier, username))
  {
  }

  /** A challenge is consumed at most once: after it is accepted, verifying again fails. */
  lemma ChallengeConsumedOnce(client: Client, code: string, answer: TwoFactorResponse,
                              code': string, answer': TwoFactorResponse)
    requires VerifyTwoFactor(client, code, answer).outcome.Ok?
    ensures VerifyTwoFactor(VerifyTwoFactor(client, code, answer).client, code', answer').outcome
            == Err(NoTwoFactorAuthPending)
  {
  }
}

=== FILE: errors.dfy ===
/**
  The exception hierarchy of the scraper, turned into data.

  Every operation of the client that can raise returns a `Result` instead;
  the constructors of `Error` carry the names of the Python exception
  classes, and `MissingKey` stands for the `KeyError` a dictionary lookup
  raises when the backend's answer lacks an expected entry.
 */
module Errors {

  /** Why an `AuthenticationError` was raised. */
  datatype AuthFailure =
    | BackendMessage(message: string)   // non-ok status with a non-empty message
    | UnexpectedResponse                // non-ok status without a usable message
    | IncorrectPassword(username: string)
    | UnknownUsername(username: string)
    | IncorrectTwoFactorCode

  datatype Error =
    | AuthenticationError(reason: AuthFailure)
    | TwoFactorAuthRequired(username: string)
    | NoTwoFactorAuthPending
    | UserNotFound(username: string)
    | AccessToDataDenied
    | MissingKey(key: string)

  datatype Option<+T> = None | Some(value: T)

  /** The outcome of one call: a value, or the exception it raised. */
  datatype Result<+T> = Ok(value: T) | Err(error: Error)
}

=== FILE: pagination.dfy ===
/**
  The cursor pagination engine `query_nodes`. The backend is the finite list
  of pages it answers with, in order: the first request gets `pages[0]`, the
  k-th follow-up request gets `pages[k]`. Each page is the `edge` object the
  engine extracts from the answer: its nodes, `has_next_page` and
  `end_cursor`.
 */
module Pagination {
  import opened Errors

  /** The JSON values the query variables hold. */
  datatype Json = JStr(str: string) | JInt(num: int)

  type Vars = map<string, Json>

  const PageSize := 50

  datatype Page<N> = Page(edges: seq<N>, hasNext: bool, endCursor: string)

  /** One GET of the graph query endpoint. */
  datatype Request = Request(queryId: string, variables: Vars)

  /**
    The requests a walk issued, the caller's variables as the walk left them
    (the engine writes `first` and each `after` into the caller's dict), and
    what the stream produced.
   */
  datatype Run<N> = Run(requests: seq<Request>, variables: Vars, output: Result<seq<N>>)

  /** The backend's pages come to an end: some page says there is no next one. */
  predicate Ends<N>(pages: seq<Page<N>>) {
    exists k :: 0 <= k < |pages| && !pages[k].hasNext
  }

  /**
    The walk terminates on this backend: it answers at least the first
    request, and unless that first page is empty (which ends the walk at
    once) some page says there is no next one.
   */
  predicate Walkable<N>(pages: seq<Page<N>>) {
    |pages| > 0 && (|pages[0].edges| == 0 || Ends(pages))
  }

  function StopFrom<N>(pages: seq<Page<N>>, k: nat): (s: nat)
    requires k <= |pages|
    requires exists j :: k <= j < |pages| && !pages[j].hasNext
    ensures k <= s < |pages| && !pages[s].hasNext
    ensures forall j :: k <= j < s ==> pages[j].hasNext
    decreases |pages| - k
  {
    if !pages[k].hasNext then k else StopFrom(pages, k + 1)
  }

  /** The index of the first page without a next one: the last page a full walk fetches. */
  function Stop<N>(pages: seq<Page<N>>): (s: nat)
    requires Ends(pages)
    ensures s < |pages| && !pages[s].hasNext
    ensures forall j :: 0 <= j < s ==> pages[j].hasNext
  {
    StopFrom(pages, 0)
  }

  /** All nodes of the given pages, page after page, each in its page's order. */
  function Concat<N>(pages: seq<Page<N>>): seq<N> {
    if |pages| == 0 then [] else pages[0].edges + Concat(pages[1..])
  }

  /** Total number of nodes on the given pages. */
  function NodeCount<N>(pages: seq<Page<N>>): nat {
    if |pages| == 0 then 0 else |pages[0].edges| + NodeCount(pages[1..])
  }

  /**
    The follow-up requests after page `k` was fetched with `variables`: while
    the current page has a next one, set `after` to its end cursor and fetch.
   */
  function FetchRest<N>(queryId: string, variables: Vars, pages: seq<Page<N>>, k: nat): (r: (seq<Request>, seq<N>))
    requires Ends(pages) && k <= Stop(pages)
    ensures |r.0| == Stop(pages) - k
    ensures forall i :: 0 <= i < |r.0| ==>
      r.0[i] == Request(queryId, variables["after" := JStr(pages[k + i].endCursor)])
    ensures r.1 == Concat(pages[k + 1..Stop(pages) + 1])
    decreases Stop(pages) - k
  {
    if !pages[k].hasNext then
      assert k == Stop(pages);
      ([], [])
    else
      var next := variables["after" := JStr(pages[k].endCursor)];
      var rest := FetchRest(queryId, next, pages, k + 1);
      assert forall c: string :: next["after" := JStr(c)] == variables["after" := JStr(c)];
      assert pages[k + 1..Stop(pages) + 1][1..] == pages[k + 2..Stop(pages) + 1];
      ([Request(queryId, next)] + rest.0, pages[k + 1].edges + rest.1)
  }

  /**
    `query_nodes`: force the page size, fetch the first page, fail if it has
    no edges, and otherwise stream every node of every page up to the first
    one without a next page.
   */
  function QueryNodes<N>(queryId: string, base: Vars, pages: seq<Page<N>>): (r: Run<N>)
    requires Walkable(pages)
    // the first request carries the caller's variables with the page size forced
    ensures 0 < |r.requests| <= |pages|
    ensures r.requests[0] == Request(queryId, base["first" := JInt(PageSize)])
    // every later request moves `after` to the previous page's cursor and changes nothing else
    ensures forall k :: 0 <= k < |r.requests| - 1 ==>
      r.requests[k + 1] == Request(queryId, r.requests[k].variables["after" := JStr(pages[k].endCursor)])
    ensures forall k :: 0 < k < |r.requests| ==>
      r.requests[k] == Request(queryId, r.requests[0].variables["after" := JStr(pages[k - 1].endCursor)])
    // an empty first page is the only error, and nothing is fetched after it
    ensures r.output.Err? <==> |pages[0].edges| == 0
    ensures r.output.Err? ==> r.output.error == AccessToDataDenied && |r.requests| == 1
    // otherwise page k+1 is fetched exactly when page k has a next one
    ensures r.output.Ok? ==> |r.requests| == Stop(pages) + 1
    ensures r.output.Ok? ==> r.output.value == Concat(pages[..Stop(pages) + 1])
  {
    var first := base["first" := JInt(PageSize)];
    if |pages[0].edges| == 0 then Run([Request(queryId, first)], first, Err(AccessToDataDenied))
    else
      var rest := FetchRest(queryId, first, pages, 0);
      assert pages[..Stop(pages) + 1][1..] == pages[1..Stop(pages) + 1];
      var requests := [Request(queryId, first)] + rest.0;
      forall k | 0 < k < |requests|
        ensures requests[k] == Request(queryId, first["after" := JStr(pages[k - 1].endCursor)])
      {
        assert requests[k] == rest.0[k - 1];
      }
      forall k | 0 <= k < |requests| - 1
        ensures requests[k + 1] == Request(queryId, requests[k].variables["after" := JStr(pages[k].endCursor)])
      {
        if k > 0 {
          assert requests[k].variables == first["after" := JStr(pages[k - 1].endCursor)];
        }
      }
      Run(requests, requests[|requests| - 1].variables, Ok(pages[0].edges + rest.1))
  }

  lemma {:induction false} ConcatLength<N>(pages: seq<Page<N>>)
    ensures |Concat(pages)| == NodeCount(pages)
  {
    if |pages| > 0 {
      ConcatLength(pages[1..]);
    }
  }

  /**
    No node is dropped, duplicated or moved: node `j` of page `k` sits at the
    position that follows every node of the pages before page `k`.
   */
  lemma {:induction false} ConcatPosition<N>(pages: seq<Page<N>>, k: nat, j: nat)
    requires k < |pages| && j < |pages[k].edges|
    ensures NodeCount(pages[..k]) + j < |Concat(pages)|
    ensures Concat(pages)[NodeCount(pages[..k]) + j] == pages[k].edges[j]
  {
    ConcatLength(pages);
    if k == 0 {
      assert pages[..0] == [];
    } else {
      ConcatPosition(pages[1..], k - 1, j);
      assert pages[1..][..k - 1] == pages[..k][1..];
      assert NodeCount(pages[..k]) == |pages[0].edges| + NodeCount(pages[1..][..k - 1]);
    }
  }

  /** Every streamed node is a node of some fetched page, at the matching position. */
  lemma {:induction false} ConcatOrigin<N>(pages: seq<Page<N>>, p: nat)
    requires p < |Concat(pages)|
    ensures exists k, j :: (0 <= k < |pages| && 0 <= j < |pages[k].edges|
      && p == NodeCount(pages[..k]) + j && Concat(pages)[p] == pages[k].edges[j])
  {
    assert |pages| > 0;
    if p < |pages[0].edges| {
      assert pages[..0] == [];
      assert NodeCount(pages[..0]) + p == p;
      assert Concat(pages)[p] == pages[0].edges[p];
    } else {
      var q := p - |pages[0].edges|;
      ConcatOrigin(pages[1..], q);
      var k, j :| 0 <= k < |pages[1..]| && 0 <= j < |pages[1..][k].edges|
        && q == NodeCount(pages[1..][..k]) + j && Concat(pages[1..])[q] == pages[1..][k].edges[j];
      assert pages[1..][..k] == pages[..k + 1][1..];
      assert NodeCount(pages[..k + 1]) == |pages[0].edges| + NodeCount(pages[1..][..k]);
    }
  }

  /** A successful walk streams as many nodes as the fetched pages hold. */
  lemma QueryNodesCount<N>(queryId: string, base: Vars, pages: seq<Page<N>>)
    requires Ends(pages) && |pages[0].edges| > 0
    ensures var out := QueryNodes(queryId, base, pages).output;
      out.Ok? && |out.value| == NodeCount(pages[..Stop(pages) + 1])
  {
    ConcatLength(pages[..Stop(pages) + 1]);
  }

  /**
    Node `j` of fetched page `k` is streamed at the offset that follows every
    node of the pages before it: nothing is dropped or moved, and an empty
    page after the first only contributes nothing.
   */
  lemma QueryNodesPosition<N>(queryId: string, base: Vars, pages: seq<Page<N>>, k: nat, j: nat)
    requires Ends(pages) && |pages[0].edges| > 0
    requires k <= Stop(pages) && j < |pages[k].edges|
    ensures var out := QueryNodes(queryId, base, pages).output;
      && out.Ok?
      && NodeCount(pages[..k]) + j < |out.value|
      && out.value[NodeCount(pages[..k]) + j] == pages[k].edges[j]
  {
    FetchedPosition(pages, k, j);
  }

  lemma FetchedPosition<N>(pages: seq<Page<N>>, k: nat, j: nat)
    requires Ends(pages) && k <= Stop(pages) && j < |pages[k].edges|
    ensures NodeCount(pages[..k]) + j < |Concat(pages[..Stop(pages) + 1])|
    ensures Concat(pages[..Stop(pages) + 1])[NodeCount(pages[..k]) + j] == pages[k].edges[j]
  {
    var fetched := pages[..Stop(pages) + 1];
    ConcatPosition(fetched, k, j);
    assert fetched[..k] == pages[..k];
  }

  /** Every streamed node is a node of some fetched page: nothing is invented. */
  lemma QueryNodesOrigin<N>(queryId: string, base: Vars, pages: seq<Page<N>>, p: nat)
    requires Ends(pages) && |pages[0].edges| > 0
    requires p < |QueryNodes(queryId, base, pages).output.value|
    ensures exists k, j :: (0 <= k <= Stop(pages) && 0 <= j < |pages[k].edges|
      && QueryNodes(queryId, base, pages).output.value[p] == pages[k].edges[j])
  {
    var fetched := pages[..Stop(pages) + 1];
    ConcatOrigin(fetched, p);
    var k, j :| 0 <= k < |fetched| && 0 <= j < |fetched[k].edges|
      && p == NodeCount(fetched[..k]) + j && Concat(fetched)[p] == fetched[k].edges[j];
    assert fetched[k] == pages[k];
  }

  /** Every request the walk issues asks for pages of 50, and only follow-ups carry `after`. */
  lemma QueryNodesRequestVariables<N>(queryId: string, base: Vars, pages: seq<Page<N>>)
    requires Walkable(pages)
    ensures var reqs := QueryNodes(queryId, base, pages).requests;
      && (forall k :: 0 <= k < |reqs| ==>
            reqs[k].queryId == queryId && "first" in reqs[k].variables && reqs[k].variables["first"] == JInt(PageSize))
      && ("after" !in base ==> "after" !in reqs[0].variables)
      && (forall k :: 0 < k < |reqs| ==>
            "after" in reqs[k].variables && reqs[k].variables["after"] == JStr(pages[k - 1].endCursor))
      && (forall k, key :: 0 <= k < |reqs| && key in base && key != "first" && key != "after" ==>
            key in reqs[k].variables && reqs[k].variables[key] == base[key])
  {
    var reqs := QueryNodes(queryId, base, pages).requests;
    var first := base["first" := JInt(PageSize)];
    assert reqs[0].variables == first;
    forall k | 0 < k < |reqs|
      ensures reqs[k].variables == first["after" := JStr(pages[k - 1].endCursor)]
    {
    }
    forall k, key | 0 <= k < |reqs| && key in base && key != "first" && key != "after"
      ensures key in reqs[k].variables && reqs[k].variables[key] == base[key]
    {
      if k > 0 {
        assert reqs[k].variables == first["after" := JStr(pages[k - 1].endCursor)];
      }
    }
  }

  /**
    The engine writes into the caller's variables: after a successful walk
    they hold the forced page size and, if any follow-up was made, the cursor
    of the last page that had a next one. A caller that reuses them resumes
    from that cursor.
   */
  lemma QueryNodesLeavesVariables<N>(queryId: string, base: Vars, pages: seq<Page<N>>)
    requires Walkable(pages)
    ensures var run := QueryNodes(queryId, base, pages);
      run.variables == run.requests[|run.requests| - 1].variables
    ensures |pages[0].edges| == 0 ==> QueryNodes(queryId, base, pages).variables == base["first" := JInt(PageSize)]
    ensures |pages[0].edges| > 0 ==> var vars := QueryNodes(queryId, base, pages).variables;
      && "first" in vars && vars["first"] == JInt(PageSize)
      && (Stop(pages) == 0 ==> vars == base["first" := JInt(PageSize)])
      && (Stop(pages) > 0 ==> "after" in vars && vars["after"] == JStr(pages[Stop(pages) - 1].endCursor))
  {
  }
}

=== FILE: profile.dfy ===
/**
  The identity-header override of `get_user_info`: the session switches to
  the mobile API host and client before the lookup, and switches back to the
  web host and browser only on the path that does not raise `UserNotFound`.
 */
module Profile {
  import opened Errors
  import opened Session

  /** The lookup's answer: HTTP status and, if the body has one, `data.user`. */
  datatype ProfileResponse<P> = ProfileResponse(statusCode: int, user: Option<P>)

  function WithIdentity(headers: Headers, host: string, agent: string): Headers {
    headers["Host" := host]["User-Agent" := agent]
  }

  function GetUserInfo<P>(client: Client, username: string, resp: ProfileResponse<P>): (r: Step<P>)
    ensures r.posted.None?
    ensures r.client.cookies == client.cookies && r.client.twoFactor == client.twoFactor
    ensures r.client.headers.Keys == client.headers.Keys + {"Host", "User-Agent"}
    ensures forall h :: h in client.headers && h != "Host" && h != "User-Agent" ==>
      r.client.headers[h] == client.headers[h]
    // a 404 raises with the mobile identity still installed
    ensures resp.statusCode == 404 ==>
      && r.outcome == Err(UserNotFound(username))
      && r.client.headers["Host"] == MobileHost && r.client.headers["User-Agent"] == MobileAgent
    // any other status puts the web identity back before the body is read
    ensures resp.statusCode != 404 ==>
      && r.client.headers["Host"] == DefaultHeaders["Host"]
      && r.client.headers["User-Agent"] == DefaultHeaders["User-Agent"]
      && (r.outcome.Ok? <==> resp.user.Some?)
      && (resp.user.Some? ==> r.outcome.value == resp.user.value)
  {
    var mobile := client.(headers := WithIdentity(client.headers, MobileHost, MobileAgent));
    if resp.statusCode == 404 then Step(None, Err(UserNotFound(username)), mobile)
    else
      var web := mobile.(headers := WithIdentity(mobile.headers, WebHost, BrowserAgent));
      match resp.user
      case None => Step(None, Err(MissingKey("data")), web)
      case Some(user) => Step(None, Ok(user), web)
  }

  /**
    Starting from a session with the default identity, a lookup without a 404
    leaves the headers exactly as they were, while a 404 leaves the mobile
    identity behind.
   */
  lemma LookupRestoresIdentity<P>(client: Client, username: string, resp: ProfileResponse<P>)
    requires "Host" in client.headers && client.headers["Host"] == WebHost
    requires "User-Agent" in client.headers && client.headers["User-Agent"] == BrowserAgent
    ensures resp.statusCode != 404 ==> GetUserInfo(client, username, resp).client == client
    ensures resp.statusCode == 404 ==> GetUserInfo(client, username, resp).client != client
  {
  }
}

=== FILE: relationships.dfy ===
/**
  `get_followers` and `get_followees`: the pagination engine bound to fixed
  query identifiers, with the stream cut by an optional `max_count`. The two
  cuts differ: followers stops before the item whose index equals
  `max_count`, followees only before the first item whose index exceeds it.
 */
module Relationships {
  import opened Errors
  import opened Pagination

  const FollowersQuery := "17851374694183129"   // edge `edge_followed_by`
  const FolloweesQuery := "17874545323001329"   // edge `edge_follow`

  /** Python truthiness of `max_count`: None and 0 mean no limit. */
  predicate Limited(maxCount: Option<int>) {
    maxCount.Some? && maxCount.value != 0
  }

  function Min(a: int, b: int): int {
    if a <= b then a else b
  }

  /** How many followers are yielded from a stream of `total` nodes. */
  function FollowersLength(maxCount: Option<int>, total: nat): nat {
    if Limited(maxCount) && maxCount.value > 0 then Min(maxCount.value, total) else total
  }

  /** How many followees are yielded from a stream of `total` nodes. */
  function FolloweesLength(maxCount: Option<int>, total: nat): nat {
    if !Limited(maxCount) then total
    else if maxCount.value > 0 then Min(maxCount.value + 1, total)
    else 0
  }

  /** The followers loop from index `count` on: stop when `max_count == count`. */
  function TakeFollowers<N>(stream: seq<N>, maxCount: Option<int>, count: nat): seq<N>
    requires count <= |stream|
    decreases |stream| - count
  {
    if count == |stream| then []
    else if Limited(maxCount) && maxCount.value == count then []
    else [stream[count]] + TakeFollowers(stream, maxCount, count + 1)
  }

  /** The followees loop from index `count` on: stop when `count > max_count`. */
  function TakeFollowees<N>(stream: seq<N>, maxCount: Option<int>, count: nat): seq<N>
    requires count <= |stream|
    decreases |stream| - count
  {
    if count == |stream| then []
    else if Limited(maxCount) && count > maxCount.value then []
    else [stream[count]] + TakeFollowees(stream, maxCount, count + 1)
  }

  /** The followers loop yields exactly the stream's first `FollowersLength` items. */
  lemma {:induction false} TakeFollowersIsPrefix<N>(stream: seq<N>, maxCount: Option<int>, count: nat)
    requires count <= FollowersLength(maxCount, |stream|)
    ensures TakeFollowers(stream, maxCount, count) == stream[count..FollowersLength(maxCount, |stream|)]
    decreases |stream| - count
  {
    var len := FollowersLength(maxCount, |stream|);
    if count == |stream| {
    } else if Limited(maxCount) && maxCount.value == count {
      assert len == count;
    } else {
      assert count < len;
      TakeFollowersIsPrefix(stream, maxCount, count + 1);
      assert stream[count..len] == [stream[count]] + stream[count + 1..len];
    }
  }

  /** The followees loop yields exactly the stream's first `FolloweesLength` items. */
  lemma {:induction false} TakeFolloweesIsPrefix<N>(stream: seq<N>, maxCount: Option<int>, count: nat)
    requires count <= FolloweesLength(maxCount, |stream|)
    ensures TakeFollowees(stream, maxCount, count) == stream[count..FolloweesLength(maxCount, |stream|)]
    decreases |stream| - count
  {
    var len := FolloweesLength(maxCount, |stream|);
    if count == |stream| {
    } else if Limited(maxCount) && count > maxCount.value {
      assert len == count;
    } else {
      assert count < len;
      TakeFolloweesIsPrefix(stream, maxCount, count + 1);
      assert stream[count..len] == [stream[count]] + stream[count + 1..len];
    }
  }

  /**
    `get_followers`: the first `max_count` nodes of the followers walk, or
    all of them. The requests are those of the whole walk, each for the
    followers query about `userId`.
   */
  function GetFollowers<N>(userId: string, maxCount: Option<int>, pages: seq<Page<N>>): (r: Run<N>)
    requires Walkable(pages)
    ensures forall k :: 0 <= k < |r.requests| ==>
      && r.requests[k].queryId == FollowersQuery
      && "id" in r.requests[k].variables && r.requests[k].variables["id"] == JStr(userId)
    ensures r.output.Err? <==> |pages[0].edges| == 0
    ensures r.output.Err? ==> r.output.error == AccessToDataDenied && |r.requests| == 1
    ensures r.output.Ok? ==> var stream := Concat(pages[..Stop(pages) + 1]);
      r.output.value == stream[..FollowersLength(maxCount, |stream|)]
  {
    var run := QueryNodes(FollowersQuery, map["id" := JStr(userId)], pages);
    QueryNodesRequestVariables(FollowersQuery, map["id" := JStr(userId)], pages);
    match run.output
    case Err(e) => Run(run.requests, run.variables, Err(e))
    case Ok(stream) =>
      TakeFollowersIsPrefix(stream, maxCount, 0);
      Run(run.requests, run.variables, Ok(TakeFollowers(stream, maxCount, 0)))
  }

  /**
    `get_followees`: the first `max_count + 1` nodes of the followees walk,
    or all of them. The requests are those of the whole walk, each for the
    followees query about `userId`.
   */
  function GetFollowees<N>(userId: string, maxCount: Option<int>, pages: seq<Page<N>>): (r: Run<N>)
    requires Walkable(pages)
    ensures forall k :: 0 <= k < |r.requests| ==>
      && r.requests[k].queryId == FolloweesQuery
      && "id" in r.requests[k].variables && r.requests[k].variables["id"] == JStr(userId)
    ensures r.output.Err? <==> |pages[0].edges| == 0
    ensures r.output.Err? ==> r.output.error == AccessToDataDenied && |r.requests| == 1
    ensures r.output.Ok? ==> var stream := Concat(pages[..Stop(pages) + 1]);
      r.output.value == stream[..FolloweesLength(maxCount, |stream|)]
  {
    var run := QueryNodes(FolloweesQuery, map["id" := JStr(userId)], pages);
    QueryNodesRequestVariables(FolloweesQuery, map["id" := JStr(userId)], pages);
    match run.output
    case Err(e) => Run(run.requests, run.variables, Err(e))
    case Ok(stream) =>
      TakeFolloweesIsPrefix(stream, maxCount, 0);
      Run(run.requests, run.variables, Ok(TakeFollowees(stream, maxCount, 0)))
  }

  /**
    On the same backend pages, followers is a prefix of followees unless the
    limit is negative; a positive limit `n` below the stream's size gives `n`
    followers and `n + 1` followees; without a limit both yield the whole stream.
   */
  lemma LimitAsymmetry<N>(userId: string, maxCount: Option<int>, pages: seq<Page<N>>)
    requires Ends(pages) && |pages[0].edges| > 0
    ensures var stream := Concat(pages[..Stop(pages) + 1]);
      var followers := GetFollowers(userId, maxCount, pages).output.value;
      var followees := GetFollowees(userId, maxCount, pages).output.value;
      && (maxCount.None? || maxCount.value >= 0 ==> followers <= followees)
      && (Limited(maxCount) && 0 < maxCount.value < |stream| ==>
            |followers| == maxCount.value && |followees| == maxCount.value + 1)
      && (!Limited(maxCount) ==> followers == stream && followees == stream)
  {
  }

  /** A negative limit is truthy: followers never reaches it, followees stops at once. */
  lemma NegativeLimit<N>(userId: string, n: int, pages: seq<Page<N>>)
    requires Ends(pages) && |pages[0].edges| > 0 && n < 0
    ensures GetFollowers(userId, Some(n), pages).output.value == Concat(pages[..Stop(pages) + 1])
    ensures GetFollowees(userId, Some(n), pages).output.value == []
  {
  }
}

=== FILE: session.dfy ===
/**
  The client's mutable state, made explicit: the transport session's header
  map and cookie jar, and the pending two-factor challenge. Each operation of
  the client takes a `Client` and returns a `Step`: what it posted, how it
  ended, and the client state it leaves behind (which a Python method that
  raises part-way through has already changed).
 */
module Session {
  import opened Errors

  type Headers = map<string, string>
  type Cookies = map<string, string>

  /** A form body sent with a POST request. */
  type Form = map<string, string>

  const WebHost := "www.instagram.com"
  const BrowserAgent := "Mozilla/5.0 (Windows NT 10.0; Win64; x64; rv:100.0) Gecko/20100101 Firefox/100.0"
  const MobileHost := "i.instagram.com"
  const MobileAgent := "Instagram 219.0.0.12.117 Android"

  /**
    The headers a fresh session starts with: the transport's own `Accept`
    default, and the entries `default_session` installs over the others.
   */
  const DefaultHeaders: Headers := map[
    "Accept" := "*/*",
    "Accept-Encoding" := "gzip, deflate, br",
    "Accept-Language" := "en-US,en;q=0.5",
    "Connection" := "keep-alive",
    "Host" := WebHost,
    "Origin" := "https://www.instagram.com",
    "Referer" := "https://www.instagram.com/",
    "User-Agent" := BrowserAgent,
    "X-Requested-With" := "XMLHttpRequest",
    "X-IG-App-ID" := "936619743392459"
  ]

  /** No challenge, or the (identifier, username) of the pending one. */
  datatype TwoFactorState =
    | NoChallenge
    | AwaitingTwoFactor(identifier: string, username: string)

  datatype Client = Client(headers: Headers, cookies: Cookies, twoFactor: TwoFactorState)

  /** What one call did: the form it posted (if any), its outcome, the state after it. */
  datatype Step<+T> = Step(posted: Option<Form>, outcome: Result<T>, client: Client)

  /** A freshly constructed client: default headers, empty jar, nothing pending. */
  function NewClient(): (c: Client)
    ensures "Host" in c.headers && c.headers["Host"] == WebHost
    ensures "User-Agent" in c.headers && c.headers["User-Agent"] == BrowserAgent
    ensures "X-CSRFToken" !in c.headers
    ensures c.cookies == map[]
    ensures c.twoFactor.NoChallenge?
  {
    Client(DefaultHeaders, map[], NoChallenge)
  }
}

=== FILE: text.dfy ===
/**
  The two pieces of Python string behaviour the client relies on:
  formatting a non-negative integer in decimal (`f"{n}"`) and
  `str.find`, which returns the lowest index of a substring or -1.
 */
module Text {

  predicate IsDigit(c: char) {
    '0' <= c <= '9'
  }

  predicate AllDigits(s: string) {
    forall i :: 0 <= i < |s| ==> IsDigit(s[i])
  }

  function DigitChar(d: nat): (c: char)
    requires d < 10
    ensures IsDigit(c)
  {
    ('0' as int + d) as char
  }

  function DigitValue(c: char): (d: nat)
    requires IsDigit(c)
    ensures d < 10
    ensures DigitChar(d) == c
  {
    c as int - '0' as int
  }

  /** Decimal notation of `n`, as Python's `str(n)` writes it. */
  function Decimal(n: nat): (s: string)
    ensures |s| > 0
    ensures AllDigits(s)
    ensures |s| > 1 ==> s[0] != '0'
    decreases n
  {
    if n < 10 then [DigitChar(n)] else Decimal(n / 10) + [DigitChar(n % 10)]
  }

  /** Value of a string of decimal digits (the empty string reads as 0). */
  function ParseDecimal(s: string): nat
    requires AllDigits(s)
  {
    if |s| == 0 then 0 else 10 * ParseDecimal(s[..|s| - 1]) + DigitValue(s[|s| - 1])
  }

  /** Reading back a formatted number gives the number. */
  lemma {:induction false} DecimalRoundTrip(n: nat)
    ensures ParseDecimal(Decimal(n)) == n
    decreases n
  {
    var s := Decimal(n);
    if n < 10 {
      assert s[..|s| - 1] == [];
    } else {
      DecimalRoundTrip(n / 10);
      assert s[..|s| - 1] == Decimal(n / 10);
    }
  }

  lemma {:induction false} ParsePositive(s: string)
    requires AllDigits(s) && |s| > 0 && s[0] != '0'
    ensures ParseDecimal(s) >= 1
    decreases |s|
  {
    if |s| > 1 {
      ParsePositive(s[..|s| - 1]);
    }
  }

  /** Digits without a leading zero are the decimal text of their value. */
  lemma {:induction false} DecimalOfParse(s: string)
    requires AllDigits(s) && |s| > 0 && (|s| > 1 ==> s[0] != '0')
    ensures Decimal(ParseDecimal(s)) == s
    decreases |s|
  {
    var init := s[..|s| - 1];
    if |s| == 1 {
      assert init == [];
    } else {
      ParsePositive(init);
      DecimalOfParse(init);
      var n := ParseDecimal(s);
      assert n / 10 == ParseDecimal(init) && n % 10 == DigitValue(s[|s| - 1]);
      assert s == init + [s[|s| - 1]];
    }
  }

  /** `t` occurs in `s` starting at index `i`. */
  predicate OccursAt(s: string, t: string, i: int) {
    0 <= i && i + |t| <= |s| && s[i..i + |t|] == t
  }

  /** `t` is a substring of `s` (Python's `t in s`). */
  predicate Contains(s: string, t: string) {
    exists i :: 0 <= i <= |s| - |t| && OccursAt(s, t, i)
  }

  function FindFrom(s: string, t: string, start: nat): (r: int)
    requires start <= |s| + 1
    ensures r == -1 || (start <= r && OccursAt(s, t, r))
    ensures forall j :: start <= j && (r == -1 || j < r) ==> !OccursAt(s, t, j)
    decreases |s| + 1 - start
  {
    if start + |t| > |s| then -1
    else if s[start..start + |t|] == t then start
    else FindFrom(s, t, start + 1)
  }

  /** Python's `s.find(t)`: the first index at which `t` occurs, or -1. */
  function Find(s: string, t: string): (r: int)
    ensures r == -1 <==> !Contains(s, t)
    ensures r != -1 ==> OccursAt(s, t, r) && forall j :: 0 <= j < r ==> !OccursAt(s, t, j)
  {
    FindFrom(s, t, 0)
  }
}
